=== FILE: README.md ===
# DreamToReality core, modelled in Dafny

DreamToReality turns a free-text "dream" into a phased roadmap. A form
collects the dream and a category. A relay forwards them to a
large-language-model gateway. The relay cleans the completion text, parses it
and returns it. A viewer then shows the roadmap as a checklist with progress
counts. This project models the logic of those three pieces and proves what
they promise.

- **Relay** (`render-server.js`, `supabase/functions/generate-roadmap/index.ts`).
  `Relay.Handle` is the decision procedure for one request. It destructures the
  body and rejects a missing or short dream with 400. It fails with 500 when no
  API key is configured. Otherwise it calls the gateway once. Status 429 and 402
  are passed on with fixed messages, and any other failing status becomes 500.
  On success the completion is cleaned by `RelayText.StripFences` and parsed.
  A parse failure is 500. Otherwise the parsed value is returned unchanged.
  The gateway and `JSON.parse` are function parameters. Any error thrown on the
  way becomes 500 with that error's message.
  `RenderServer.PostGenerateRoadmap` models the Express route and
  `EdgeFunction.Serve` models the edge function. Both are written step by step,
  with early returns, a reassigned `roadmapText`, and the try/catch as a
  labelled block. Each is proved to answer exactly what `Relay.Handle` answers.
  The edge function also has its own preflight short-circuit, its own
  `req.json()` failure path and its own headers.
- **Fence stripping** (`RelayText`): both `replace` calls are modelled as
  regex scans from left to right. `trim` uses the exact ECMAScript whitespace
  set.
- **Roadmap viewer** (`src/components/RoadmapDisplay.tsx`): the class
  `RoadmapDisplay.Viewer` holds the expanded phase numbers and the completed
  milestone keys `"<phaseNumber>-<index>"`. The user changes each set only
  through its toggle method. The counts and ratios are pure functions over the
  `Roadmap` datatype. In `src/pages/Index.tsx`, the viewer is unmounted in two
  cases. One is the Regenerate button. The other is a delivered roadmap that is
  falsy: an absent `data.roadmap`, or a completion that parses to `null`,
  `false`, `0` or `""`. After that, a later roadmap gets a freshly constructed
  `Viewer`. The dream form stays on the page, though. A roadmap generated from it
  while a viewer is shown replaces that viewer's `roadmap` prop, and the viewer
  stays mounted. This is `Viewer.ReceiveRoadmap`, and the old ticks stay counted
  (see Findings).
- **Dream form** (`src/components/DreamInput.tsx`): the class
  `DreamInput.DreamForm` holds `dream`, `category` and `isLoading`.
  `HandleGenerate` takes the backend call as a parameter that may return any
  outcome.

Progress ratios are computed with exact reals. `Undefined` stands for the NaN
or Infinity that JavaScript produces when a denominator is 0. The model keeps
that case undefined and does not change it to 0%, because the code does not
guard against it.

## Model

| member | source | states |
|---|---|---|
| `Decimal.ParseNatToString` | src/components/RoadmapDisplay.tsx:63 | Reading back the decimal text of an index gives the index. The number formatting used in keys loses nothing. |
| `Decimal.IntToStringInjective` | src/components/RoadmapDisplay.tsx:63 | Two phase numbers with the same decimal text are equal. Negative numbers are covered. |
| `RoadmapDisplay.MilestoneKeyInjective` | src/components/RoadmapDisplay.tsx:62-63 | The key `"p-i"` determines both `p` and `i`. Distinct (phase, index) pairs never share completion state. |
| `RoadmapDisplay.Toggle` | src/components/RoadmapDisplay.tsx:52-71 | The toggled element's membership flips. Every other element keeps its membership. |
| `RoadmapDisplay.ToggleTwice` | src/components/RoadmapDisplay.tsx:52-71 | Toggling the same phase or the same key twice restores the original set. |
| `RoadmapDisplay.Viewer.constructor` | src/components/RoadmapDisplay.tsx:48-50 | The viewer starts with phases {1} expanded and no milestone completed. Only rendered keys are completed at that point. |
| `RoadmapDisplay.Viewer.TogglePhase` | src/components/RoadmapDisplay.tsx:52-60 | The new expanded set is the old one with only `phaseNumber` flipped. The completed set does not change. |
| `RoadmapDisplay.Viewer.ToggleMilestone` | src/components/RoadmapDisplay.tsx:62-71 | Exactly the key of `(phaseNumber, milestoneIndex)` flips, and no other (phase, index) pair changes. Ticking a rendered checkbox keeps the completed set inside the rendered keys. |
| `RoadmapDisplay.CompletedInPhase` | src/components/RoadmapDisplay.tsx:119-122 | A phase's completed count is at most its number of milestones. |
| `RoadmapDisplay.PhaseCompletedCountsIndices` | src/components/RoadmapDisplay.tsx:120-122 | `phaseCompleted` counts exactly the indices below `milestones.length` whose key is in the completed set. |
| `RoadmapDisplay.CompletedInPhaseIsOverlap` | src/components/RoadmapDisplay.tsx:120-122 | A phase's completed count equals the size of the overlap between its keys and the completed set. |
| `RoadmapDisplay.PhaseKeysCount` | src/components/RoadmapDisplay.tsx:173-174 | A phase with n milestones renders n distinct keys. |
| `RoadmapDisplay.TotalMilestonesIsSum` | src/components/RoadmapDisplay.tsx:73 | The `reduce` for `totalMilestones` equals the sum of `milestones.length` over all phases. |
| `RoadmapDisplay.RenderedKeysExactly` | src/components/RoadmapDisplay.tsx:173-189 | A key is among the rendered checkbox keys if and only if some phase with that number has a milestone at that index. |
| `RoadmapDisplay.RenderedKeysCount` | src/components/RoadmapDisplay.tsx:117-121 | When phase numbers are unique, the number of rendered keys equals the sum of milestone counts. |
| `RoadmapDisplay.CompletedCountConsistent` | src/components/RoadmapDisplay.tsx:73-74 | Suppose only rendered milestones are ticked and phase numbers are unique. Then `completedCount` is the sum of the per-phase counts, and it is at most `totalMilestones`. |
| `RoadmapDisplay.Percentage` | src/components/RoadmapDisplay.tsx:75 | The ratio is undefined exactly when the total is 0. It lies between 0 and 100 when done ≤ total. It is 100 exactly when done equals total. It is above 100 when done exceeds total. |
| `RoadmapDisplay.AllCompleteIsFullProgress` | src/components/RoadmapDisplay.tsx:119-123 | Suppose phase numbers are unique and every rendered milestone is ticked. Then overall progress is 100, and so is every non-empty phase's progress. Uniqueness is needed for the overall figure: two phases both numbered 1 share the key "1-0", so ticking everything shows 1 of 2. |
| `RoadmapDisplay.ViewerAllComplete` | src/components/RoadmapDisplay.tsx:73-75 | On a viewer with unique phase numbers and every rendered checkbox ticked, the header's progress is 100 and every non-empty phase's progress is 100. |
| `RoadmapDisplay.RenderedKeysAtMost` | src/components/RoadmapDisplay.tsx:117-121 | There are never more checkbox keys than milestones. Repeated phase numbers can only merge keys. |
| `RoadmapDisplay.ViewerProgressInRange` | src/components/RoadmapDisplay.tsx:73-75 | A viewer whose ticks are all keys of its current roadmap shows at most 100% and no more completions than milestones. This holds even when phase numbers repeat. The constructor, the toggles of rendered checkboxes and `ReceiveRoadmapReset` keep that premise. `ReceiveRoadmap` does not. |
| `RoadmapDisplay.Viewer.ReceiveRoadmap` | src/pages/Index.tsx:18-19 | A new roadmap while the viewer stays mounted replaces only the prop. The expanded and completed sets are kept unchanged, as `useState` keeps them. |
| `RoadmapDisplay.StaleTicksOverflow` | src/components/RoadmapDisplay.tsx:73-75 | Suppose every milestone of a roadmap is ticked and the viewer then receives one with fewer milestones. The completed count then exceeds the new total, and progress is above 100. |
| `RoadmapDisplay.Viewer.ReceiveRoadmapReset` | src/components/RoadmapDisplay.tsx:49-50 | A new roadmap starts from the initial state: phase 1 expanded and nothing ticked. Only rendered keys are then completed, so `ViewerProgressInRange` applies again. |
| `RelayText.TrimStart` | render-server.js:120 | Removes exactly the leading ECMAScript whitespace. The result is a suffix of the input that does not start with whitespace. |
| `RelayText.TrimEnd` | render-server.js:120 | Removes exactly the trailing ECMAScript whitespace. The result is a prefix of the input that does not end with whitespace. |
| `RelayText.TrimResult` | render-server.js:120 | `trim` gives a trimmed string and leaves an already trimmed string unchanged. |
| `RelayText.RemoveFencesLeavesNoFence` | render-server.js:120 | After the global `` ```\n? `` removal, no three backticks in a row remain. |
| `RelayText.StripFencesResult` | render-server.js:120 | The cleaned completion has no whitespace at either end and contains no fence marker. |
| `RelayText.StripUnfenced` | render-server.js:120 | Text with no three backticks in a row is only trimmed. |
| `RelayText.StripFenced` | render-server.js:120 | `` ```json\n `` + X + `` \n``` `` becomes exactly X when X is trimmed and has no backticks. |
| `RelayText.FencedAndBareAgree` | supabase/functions/generate-roadmap/index.ts:113 | The fenced and the bare payload clean up to the same text. |
| `Relay.Handle` | render-server.js:22-138 | Each request gets exactly one reply. Its status is 200, 400, 402, 429 or 500. The body carries a roadmap exactly when the status is 200. |
| `Relay.ShortDreamRejected` | render-server.js:26-35 | A missing dream, or one shorter than 50, gets 400 with its fixed message. This holds whatever the key, gateway and parser are, so the check runs before the key check and the gateway call. |
| `Relay.BadRequestExactlyOnShortDream` | render-server.js:24-30 | The reply is 400 if and only if the dream check fails. |
| `Relay.GatewayOnlyWhenAdmitted` | render-server.js:24-35 | A request refused before the gateway call gets the same reply for every gateway and parser. |
| `Relay.MissingKeyFails` | render-server.js:32-35 | With an accepted dream and an unset or empty key, the reply is 500 "LOVABLE_API_KEY is not configured". |
| `Relay.AdmittedCall` | render-server.js:83-97 | The gateway is sent the configured key and exactly the request's dream and category. |
| `Relay.QuotaStatusesPassedOn` | render-server.js:99-110 | Gateway status 429 gives 429 and status 402 gives 402, each with its fixed message. Neither the completion nor the parser affects the reply. |
| `Relay.OtherGatewayErrors` | render-server.js:111-113 | Any other failing status gives 500 "AI Gateway error: <status>", once `response.text()` has read the error body. |
| `Relay.GatewayErrorMessagesDistinct` | render-server.js:113 | Different gateway statuses give different error messages. |
| `Relay.ThrownErrorsBecome500` | render-server.js:133-138 | A thrown error gives 500 with that error's message. This covers a rejected `fetch`, an error while reading the completion, and a rejected `response.text()` on another failing status. |
| `Relay.CompletionParsed` | render-server.js:116-131 | The cleaned completion is parsed. Failure gives 500 "Failed to parse AI response as JSON". Success gives 200 with `{roadmap: v}`, where v is exactly the parsed value. |
| `Relay.FencedCompletionLikeBare` | render-server.js:117-124 | A completion wrapped in a json fence gets the same reply as the bare payload. |
| `RenderServer.PostGenerateRoadmap` | render-server.js:22-139 | The Express route, written step by step with its try/catch, answers exactly `Relay.Handle`. |
| `EdgeFunction.Serve` | supabase/functions/generate-roadmap/index.ts:8-138 | OPTIONS gets an empty 200 with the CORS headers, before any validation. A failing `req.json()` gets 500 with its message. Every other request gets `Relay.Handle`'s status and body. Every reply carries the CORS headers, and every non-preflight reply also carries `Content-Type: application/json`. |
| `DreamInput.FailureDescription` | src/components/DreamInput.tsx:61-67 | The failure text is the error's message when that is non-empty, and the fixed fallback otherwise. It is never empty. |
| `DreamInput.Conclude` | src/components/DreamInput.tsx:44-67 | The roadmap is delivered, once and unchanged, exactly when neither the call nor the returned data reports an error. Otherwise the failure text is the reported message, or the fallback when that message is empty. |
| `DreamInput.FormCheckStricterThanRelay` | src/components/DreamInput.tsx:29-30 | Every dream the form accepts (50 to 500 characters) passes the relay's check. The relay accepts exactly the dreams of 50 or more characters. |
| `DreamInput.DreamForm.constructor` | src/components/DreamInput.tsx:24-26 | The form starts with empty text, category "other" and no call in flight. Its category is one of the six ids. |
| `DreamInput.DreamForm.ChangeDream` | src/components/DreamInput.tsx:115 | Editing the text changes only the text, so the category stays one of the six ids. |
| `DreamInput.DreamForm.SelectCategory` | src/components/DreamInput.tsx:96-101 | A badge click sets the category to that badge's id, so the category stays one of the six ids. |
| `DreamInput.DreamForm.HandleGenerate` | src/components/DreamInput.tsx:32-71 | Invalid text returns at once with the "Please enter between 50 and 500 characters." description. Nothing is sent, nothing is delivered, and `isLoading` is untouched. Valid text sends exactly `{dream, category}` once, and the category is one of the six ids. During the call `isLoading` is true and the submit button is disabled, because line 134 disables it while loading, so no second request can start. The outcome is `Conclude` of the result, and `isLoading` ends false. |

## Findings

| source | as written | input that shows it | evidently intended | confidence | as-written member | corrected member |
|---|---|---|---|---|---|---|
| src/components/RoadmapDisplay.tsx:49-50 | `useState` keeps the expanded and completed sets when `src/pages/Index.tsx:18-19` passes a new `roadmap` to the mounted viewer | Tick all 16 milestones of a roadmap with 4 phases of 4 milestones. Then generate again from the form, which stays on the page, and get 4 phases of 3 milestones. The viewer shows "16 of 12 milestones completed" and 133% | a new roadmap starts with no milestones ticked | medium, not executed | `RoadmapDisplay.Viewer.ReceiveRoadmap`, `RoadmapDisplay.StaleTicksOverflow` | `RoadmapDisplay.Viewer.ReceiveRoadmapReset` |

## Left out

- The outbound `fetch` to the gateway and `supabase.functions.invoke` are network I/O. Each is a function parameter that may return any outcome. The prompt templates, model name and temperature are not modelled. The gateway call carries only the key, dream and category.
- `JSON.parse`, `response.json()` and `req.json()` are library parsers. `JSON.parse` is an arbitrary partial function. The other two are given as their outcome: a value, or the message of the error they threw.
- Express and Deno plumbing is transport code and is not modelled. This covers `app.listen`, the `/health` route with its timestamp, and the `cors()` middleware with its preflight handling. It also covers the 400 that `express.json()` sends before the route runs. In its default strict mode it sends that 400 for a malformed body and for a top-level `null`, string, number or boolean. So in the Express server a `null` body never reaches the handler. The 500 for destructuring `null` (`Relay.Destructure`) occurs only in `EdgeFunction.Serve`. The server's unused `corsHeaders` constant and the headers Express adds are not modelled either.
- `console.error` logging, the success toast, the toast titles, scrolling, `setTimeout`, and all JSX rendering are side effects or markup. `src/components/Hero.tsx` holds no logic.
- The catch's fallback 'An unexpected error occurred' is not modelled. It applies only to thrown values that are not `Error` objects, and every throw on these paths is an `Error`.
- `Relay.NullBodyMessage` stands for the TypeError a JavaScript engine throws when destructuring a `null` body. The engine's exact wording is not modelled.
- `Relay.DreamRejected`: an object `dream` with its own `length` member is treated like any other value without a length. Also, `.length` counts UTF-16 code units, while the model counts characters.
- `RoadmapDisplay.MilestoneKey`: phase numbers are integers. Fractional JavaScript numbers and exponent notation for magnitudes of 1e21 and above are not modelled.
- `RoadmapDisplay.Viewer`: the model does not decide how the app should carry state over to a new roadmap. `OnlyRenderedCompleted`, the premise of `ViewerProgressInRange` and `CompletedCountConsistent`, holds under the constructor, the toggles and `ReceiveRoadmapReset`. It can fail after `ReceiveRoadmap`, which is what the code does (see Findings).
- `RoadmapDisplay.Percentage`: the ratio uses exact reals, not IEEE doubles. `Math.round` for display is not modelled.
- The optional `completed` field of a milestone is not modelled, because the viewer never reads it.
- `DreamInput.DreamForm.HandleGenerate`: two shapes of the backend reply are not modelled. One is a reply with neither `data` nor `error`. The other is a `data.error` that is not a string. The async scheduling is reduced to `loadingDuringCall`, the flag's value when the call is made. A second submission while the first is in flight is not modelled. The button is disabled then, as `SubmitDisabled` states.
- `DreamInput.DreamForm.ChangeDream`: the textarea is disabled while loading, which is a rendering attribute. The setter itself has no guard, so the model has none.

=== FILE: decimal.dfy ===
/**
  Decimal rendering of integers, as a template literal `${n}` produces it for an
  integral JavaScript number. Used for milestone keys and gateway error messages.
 */
module Decimal {

  predicate IsDigit(c: char) {
    '0' <= c <= '9'
  }

  predicate AllDigits(s: string) {
    forall k | 0 <= k < |s| :: IsDigit(s[k])
  }

  function DigitChar(d: nat): (c: char)
    requires d < 10
    ensures IsDigit(c)
  {
    ('0' as int + d) as char
  }

  function DigitValue(c: char): (d: nat)
    requires IsDigit(c)
    ensures d < 10 && DigitChar(d) == c
  {
    c as int - '0' as int
  }

  /** The shortest decimal spelling of `n`: at least one digit, no leading zero. */
  function NatToString(n: nat): (s: string)
    ensures |s| >= 1 && AllDigits(s)
    ensures |s| > 1 ==> s[0] != '0'
    decreases n
  {
    if n < 10 then [DigitChar(n)] else NatToString(n / 10) + [DigitChar(n % 10)]
  }

  /** A minus sign in front of the magnitude for negative numbers. */
  function IntToString(i: int): (s: string)
    ensures |s| >= 1
    ensures s[0] == '-' <==> i < 0
  {
    if i < 0 then "-" + NatToString(-i) else NatToString(i)
  }

  /** Reads a string of digits back as a number; the inverse of NatToString. */
  function ParseDigits(s: string): nat
    requires AllDigits(s)
  {
    if s == [] then 0 else ParseDigits(s[..|s| - 1]) * 10 + DigitValue(s[|s| - 1])
  }

  lemma {:induction false} ParseNatToString(n: nat)
    ensures ParseDigits(NatToString(n)) == n
    decreases n
  {
    var s := NatToString(n);
    if n >= 10 {
      assert s[..|s| - 1] == NatToString(n / 10);
      ParseNatToString(n / 10);
    }
  }

  lemma NatToStringInjective(a: nat, b: nat)
    requires NatToString(a) == NatToString(b)
    ensures a == b
  {
    ParseNatToString(a);
    ParseNatToString(b);
  }

  lemma IntToStringInjective(a: int, b: int)
    requires IntToString(a) == IntToString(b)
    ensures a == b
  {
    var s := IntToString(a);
    if a < 0 {
      assert NatToString(-a) == s[1..] == NatToString(-b);
      NatToStringInjective(-a, -b);
    } else {
      NatToStringInjective(a, b);
    }
  }
}

=== FILE: dream_input.dfy ===
/**
  The dream submission form (src/components/DreamInput.tsx): the text, the
  chosen category and the loading flag, the length check, and `handleGenerate`,
  whose one call to the backend is a parameter that may return anything.
 */
module DreamInput {
  import opened Wrappers
  import opened JsonValues
  import Relay

  /** One entry of `CATEGORIES`; the source's `label` is `name` here, as `label` is a Dafny keyword. */
  datatype Category = Category(id: string, name: string, emoji: string)

  /** `CATEGORIES`: the six categories a user can pick. */
  const Categories: seq<Category> := [
    Category("startup", "Startup/Business", "\U{1F680}"),
    Category("academic", "Academic", "\U{1F4DA}"),
    Category("personal", "Personal Growth", "\U{1F331}"),
    Category("fitness", "Health & Fitness", "\U{1F4AA}"),
    Category("creative", "Creative", "\U{1F3A8}"),
    Category("other", "Other", "\U{2728}")
  ]

  const MinDreamLength: nat := 50
  const MaxDreamLength: nat := 500

  const InvalidInputDescription: string := "Please enter between 50 and 500 characters."
  const FailureFallback: string := "Failed to generate roadmap. Please try again."

  predicate IsCategoryId(id: string) {
    exists k | 0 <= k < |Categories| :: Categories[k].id == id
  }

  /** `isValid`: the character count is between 50 and 500 inclusive. */
  predicate IsValid(dream: string) {
    MinDreamLength <= |dream| <= MaxDreamLength
  }

  /** The body `{ dream, category }` sent to the backend function. */
  datatype InvokeBody = InvokeBody(dream: string, category: string)

  /**
    What `supabase.functions.invoke` resolves to: either its `error` is set
    (with that error's message), or it returned `data`, whose `error` member is
    given as text ("" when absent) and whose `roadmap` member may be absent.
   */
  datatype InvokeResult = InvokeFailed(message: string) | InvokeReturned(error: string, roadmap: Option<Json>)

  /**
    How one submission ends: rejected before any call with the "Invalid input"
    toast's text, one call of `onRoadmapGenerated` with the returned roadmap, or a
    failure toast with this text.
   */
  datatype Generation = Rejected(description: string) | Delivered(roadmap: Option<Json>) | Failed(description: string)

  /** `error.message || "Failed to generate roadmap..."`: the shown text is never empty. */
  function FailureDescription(message: string): (description: string)
    ensures description != ""
    ensures message != "" ==> description == message
    ensures message == "" ==> description == FailureFallback
  {
    if message != "" then message else FailureFallback
  }

  /**
    The try/catch around the backend call: the roadmap is delivered exactly when
    neither the call nor the returned data reports an error; otherwise the failure
    text is the reported message, or the fallback when that is empty.
   */
  function Conclude(result: InvokeResult): (g: Generation)
    ensures g.Delivered? <==> result.InvokeReturned? && result.error == ""
    ensures g.Delivered? ==> g.roadmap == result.roadmap
    ensures result.InvokeFailed? ==> g == Failed(FailureDescription(result.message))
    ensures result.InvokeReturned? && result.error != "" ==> g == Failed(result.error)
  {
    match result
    case InvokeFailed(message) => Failed(FailureDescription(message))
    case InvokeReturned(error, roadmap) =>
      if error != "" then Failed(FailureDescription(error)) else Delivered(roadmap)
  }

  /**
    The form's check is stricter than the relay's: every dream the form accepts
    passes the relay's length check, while the relay has no upper bound.
   */
  lemma FormCheckStricterThanRelay(dream: string)
    ensures IsValid(dream) ==> !Relay.DreamRejected(Some(Str(dream)))
    ensures !Relay.DreamRejected(Some(Str(dream))) <==> |dream| >= Relay.MinDreamLength
  {
  }

  /** The component's state. */
  class DreamForm {
    var dream: string
    var category: string
    var isLoading: bool

    /** `category` is always the id of one of the six categories. */
    predicate Valid()
      reads this
    {
      IsCategoryId(category)
    }

    /** An empty text, the "other" category and no call in flight. */
    constructor ()
      ensures dream == "" && category == "other" && !isLoading
      ensures Valid()
    {
      dream, category, isLoading := "", "other", false;
      assert Categories[5].id == "other";
    }

    /** The textarea's `onChange`. */
    method ChangeDream(text: string)
      modifies this
      ensures dream == text && category == old(category) && isLoading == old(isLoading)
      ensures old(Valid()) ==> Valid()
    {
      dream := text;
    }

    /** A click on the badge of the category at position `k`. */
    method SelectCategory(k: nat)
      requires k < |Categories|
      modifies this
      ensures category == Categories[k].id && dream == old(dream) && isLoading == old(isLoading)
      ensures Valid()
    {
      category := Categories[k].id;
    }

    /** `disabled={!isValid || isLoading}` on the submit button. */
    predicate SubmitDisabled()
      reads this
    {
      !IsValid(dream) || isLoading
    }

    /**
      `handleGenerate`. An invalid text returns at once, calling nothing and leaving
      the loading flag alone. Otherwise the flag is set, the backend is called once
      with exactly the text and one of the six category ids, the outcome is
      concluded, and the flag is cleared whatever happened. `loadingDuringCall` and
      `disabledDuringCall` are the loading flag and the submit button's state as the
      call is made: the button is disabled, so no second request can start while
      this one is outstanding.
     */
    method HandleGenerate(backend: InvokeBody -> InvokeResult)
      returns (sent: Option<InvokeBody>, loadingDuringCall: bool, disabledDuringCall: bool, outcome: Generation)
      requires Valid()
      modifies this
      ensures dream == old(dream) && category == old(category) && Valid()
      ensures !IsValid(old(dream)) ==> sent == None && outcome == Rejected(InvalidInputDescription) && isLoading == old(isLoading)
      ensures IsValid(old(dream))
              ==> && sent == Some(InvokeBody(old(dream), old(category)))
                  && IsCategoryId(sent.value.category)
                  && loadingDuringCall && disabledDuringCall && !isLoading
                  && outcome == Conclude(backend(sent.value))
    {
      if !IsValid(dream) {
        return None, false, SubmitDisabled(), Rejected(InvalidInputDescription);
      }
      isLoading := true;
      var body := InvokeBody(dream, category);
      sent := Some(body);
      loadingDuringCall := isLoading;
      disabledDuringCall := SubmitDisabled();
      var result := backend(body);
      // try: a reported error is thrown and the catch turns its message into the failure toast
      match result {
        case InvokeFailed(message) =>
          outcome := Failed(FailureDescription(message));
        case InvokeReturned(error, roadmap) =>
          if error != "" {
            outcome := Failed(FailureDescription(error));
          } else {
            outcome := Delivered(roadmap);
          }
      }
      // finally
      isLoading := false;
    }
  }
}

=== FILE: edge_function.dfy ===
/**
  The managed edge-function variant of the relay
  (supabase/functions/generate-roadmap/index.ts): the same decision procedure,
  preceded by the CORS preflight short-circuit, with the body read inside the
  try block and every reply carrying explicit headers.
 */
module EdgeFunction {
  import opened Wrappers
  import opened JsonValues
  import Decimal
  import RelayText
  import opened Relay

  const CorsHeaders: map<string, string> := map[
    "Access-Control-Allow-Origin" := "*",
    "Access-Control-Allow-Headers" := "authorization, x-client-info, apikey, content-type"
  ]

  /** `{ ...corsHeaders, 'Content-Type': 'application/json' }`. */
  const JsonHeaders: map<string, string> := CorsHeaders["Content-Type" := "application/json"]

  /** An incoming request: its HTTP method and the outcome of `await req.json()`. */
  datatype EdgeRequest = EdgeRequest(verb: string, json: Result<Json>)

  /** A `Response`: status, body (None for the `null` body of the preflight) and headers. */
  datatype HttpResponse = HttpResponse(status: int, body: Option<ReplyBody>, headers: map<string, string>)

  /** Every CORS header is present with its fixed value. */
  predicate CarriesCors(headers: map<string, string>) {
    forall name | name in CorsHeaders :: name in headers && headers[name] == CorsHeaders[name]
  }

  /**
    The handler passed to `serve`. A preflight gets an empty 200 with the CORS
    headers; any other request gets the relay's reply, or 500 with the message
    of the error `req.json()` threw, always with the JSON headers.
   */
  method Serve(req: EdgeRequest, apiKey: Option<string>,
               gateway: GatewayCall -> Result<GatewayResponse>,
               parse: string -> Option<Json>)
    returns (resp: HttpResponse)
    ensures req.verb == "OPTIONS" ==> resp == HttpResponse(200, None, CorsHeaders)
    ensures req.verb != "OPTIONS" && req.json.Failure?
            ==> resp == HttpResponse(500, Some(ErrorBody(req.json.message)), JsonHeaders)
    ensures req.verb != "OPTIONS" && req.json.Success?
            ==> var reply := Handle(req.json.value, apiKey, gateway, parse);
                resp == HttpResponse(reply.status, Some(reply.body), JsonHeaders)
    ensures CarriesCors(resp.headers)
    ensures req.verb != "OPTIONS" ==> resp.headers["Content-Type"] == "application/json"
  {
    assert CarriesCors(CorsHeaders) && CarriesCors(JsonHeaders) && JsonHeaders["Content-Type"] == "application/json";
    if req.verb == "OPTIONS" {
      return HttpResponse(200, None, CorsHeaders);
    }
    var thrown := "";
    label try: {
      if req.json.Failure? {
        thrown := req.json.message;
        break try;
      }
      var fields := Destructure(req.json.value);
      if fields.Failure? {
        thrown := fields.message;
        break try;
      }
      var dream, category := fields.value.dream, fields.value.category;
      if DreamRejected(dream) {
        return HttpResponse(400, Some(ErrorBody(DreamTooShortMessage)), JsonHeaders);
      }
      if !KeyConfigured(apiKey) {
        thrown := MissingKeyMessage;
        break try;
      }
      var response := gateway(GatewayCall(apiKey.value, dream.value, category));
      if response.Failure? {
        thrown := response.message;
        break try;
      }
      var status := response.value.status;
      if !Ok(status) {
        if status == 429 {
          return HttpResponse(429, Some(ErrorBody(RateLimitMessage)), JsonHeaders);
        }
        if status == 402 {
          return HttpResponse(402, Some(ErrorBody(CreditsMessage)), JsonHeaders);
        }
        // `await response.text()` can itself throw
        if response.value.errorText.Failure? {
          thrown := response.value.errorText.message;
          break try;
        }
        thrown := GatewayErrorPrefix + Decimal.IntToString(status);
        break try;
      }
      if response.value.completion.Failure? {
        thrown := response.value.completion.message;
        break try;
      }
      var roadmapText := response.value.completion.value;
      roadmapText := RelayText.StripFences(roadmapText);
      var roadmap := parse(roadmapText);
      if roadmap.None? {
        thrown := ParseFailureMessage;
        break try;
      }
      return HttpResponse(200, Some(RoadmapBody(roadmap.value)), JsonHeaders);
    }
    resp := HttpResponse(500, Some(ErrorBody(thrown)), JsonHeaders);
  }
}

=== FILE: json_values.dfy ===
/**
  JSON values as the relay and the front end exchange them, with the few
  JavaScript behaviours the core relies on: truthiness, property access and
  the `length` property.
 */
module JsonValues {
  import opened Wrappers

  datatype Json =
    | Null
    | Bool(b: bool)
    | Number(n: real)
    | Str(s: string)
    | Arr(items: seq<Json>)
    | Obj(fields: map<string, Json>)

  /** JavaScript truthiness of a JSON value (`!v` is its negation). */
  predicate Truthy(v: Json) {
    match v
    case Null => false
    case Bool(b) => b
    case Number(n) => n != 0.0
    case Str(s) => s != ""
    case Arr(_) => true
    case Obj(_) => true
  }

  /** `v.name`: an own member of an object, `undefined` (None) on anything else. */
  function Field(v: Json, name: string): Option<Json> {
    if v.Obj? && name in v.fields then Some(v.fields[name]) else None
  }

  /** `v.length`: defined for strings and arrays, `undefined` (None) otherwise. */
  function Length(v: Json): Option<nat> {
    match v
    case Str(s) => Some(|s|)
    case Arr(items) => Some(|items|)
    case _ => None
  }
}

=== FILE: relay.dfy ===
/**
  The relay's request-to-response decision procedure, shared by the Express
  server (render-server.js) and the managed edge function
  (supabase/functions/generate-roadmap/index.ts). The outbound gateway call and
  JSON.parse are parameters: the gateway maps the request it is sent to either a
  response or the error `fetch` rejected with, and `parse` is partial.
 */
module Relay {
  import opened Wrappers
  import opened JsonValues
  import Decimal
  import RelayText

  const MinDreamLength: nat := 50

  const DreamTooShortMessage: string := "Dream description must be at least 50 characters"
  const MissingKeyMessage: string := "LOVABLE_API_KEY is not configured"
  const RateLimitMessage: string := "Rate limit exceeded. Please try again in a moment."
  const CreditsMessage: string := "AI credits exhausted. Please add credits to continue."
  const GatewayErrorPrefix: string := "AI Gateway error: "
  const ParseFailureMessage: string := "Failed to parse AI response as JSON"
  /** The TypeError a JavaScript engine throws when `const { dream, category } = null` runs. */
  const NullBodyMessage: string := "Cannot destructure property 'dream' of null"

  /** The two members the handler reads from the request body. */
  datatype Fields = Fields(dream: Option<Json>, category: Option<Json>)

  /** What the relay sends to the gateway: the bearer key and the values embedded in the prompts. */
  datatype GatewayCall = GatewayCall(apiKey: string, dream: Json, category: Option<Json>)

  /**
    The gateway's HTTP response. It carries the status and two readings of the
    body, each either a value or the message of the error the read threw:
    - `completion`, read on a 2xx status: the text at `choices[0].message.content`.
      That read throws on a body that is not JSON, or on a missing or non-string
      content.
    - `errorText`, read on any other failing status: the raw body from
      `response.text()`.
    Only one of the two is ever read.
   */
  datatype GatewayResponse = GatewayResponse(status: int, completion: Result<string>, errorText: Result<string>)

  datatype ReplyBody = ErrorBody(error: string) | RoadmapBody(roadmap: Json)

  /** The status code and JSON body the relay answers with. */
  datatype Reply = Reply(status: int, body: ReplyBody)

  /** Either the relay answers before contacting the gateway, or it forwards this call. */
  datatype Admission = Refused(reply: Reply) | Admitted(call: GatewayCall)

  /** `const { dream, category } = body`; destructuring `null` throws. */
  function Destructure(body: Json): Result<Fields> {
    if body.Null? then Failure(NullBodyMessage)
    else Success(Fields(Field(body, "dream"), Field(body, "category")))
  }

  /** `!dream || dream.length < 50`; a value without a length compares as false. */
  predicate DreamRejected(dream: Option<Json>) {
    || dream.None?
    || !Truthy(dream.value)
    || (Length(dream.value).Some? && Length(dream.value).value < MinDreamLength)
  }

  /** `!LOVABLE_API_KEY` fails for an unset and for an empty variable. */
  predicate KeyConfigured(apiKey: Option<string>) {
    apiKey.Some? && apiKey.value != ""
  }

  /** `response.ok`. */
  predicate Ok(status: int) {
    200 <= status <= 299
  }

  /** Everything the handler does before the gateway call: destructure, validate, read the key. */
  function Admit(body: Json, apiKey: Option<string>): Admission {
    match Destructure(body)
    case Failure(m) => Refused(Reply(500, ErrorBody(m)))
    case Success(f) =>
      if DreamRejected(f.dream) then Refused(Reply(400, ErrorBody(DreamTooShortMessage)))
      else if !KeyConfigured(apiKey) then Refused(Reply(500, ErrorBody(MissingKeyMessage)))
      else Admitted(GatewayCall(apiKey.value, f.dream.value, f.category))
  }

  /** Everything the handler does with the gateway's outcome. */
  function Respond(outcome: Result<GatewayResponse>, parse: string -> Option<Json>): Reply {
    match outcome
    case Failure(m) => Reply(500, ErrorBody(m))
    case Success(response) =>
      if !Ok(response.status) then
        if response.status == 429 then Reply(429, ErrorBody(RateLimitMessage))
        else if response.status == 402 then Reply(402, ErrorBody(CreditsMessage))
        else
          match response.errorText
          case Failure(m) => Reply(500, ErrorBody(m))
          case Success(_) => Reply(500, ErrorBody(GatewayErrorPrefix + Decimal.IntToString(response.status)))
      else
        match response.completion
        case Failure(m) => Reply(500, ErrorBody(m))
        case Success(text) => ParseCompletion(RelayText.StripFences(text), parse)
  }

  /** `JSON.parse` of the cleaned completion, and the reply built from it. */
  function ParseCompletion(cleaned: string, parse: string -> Option<Json>): Reply {
    match parse(cleaned)
    case None => Reply(500, ErrorBody(ParseFailureMessage))
    case Some(roadmap) => Reply(200, RoadmapBody(roadmap))
  }

  /**
    The handler of `POST /generate-roadmap`: exactly one reply per request; only
    five statuses occur, and the body carries a roadmap exactly on 200.
   */
  function Handle(body: Json, apiKey: Option<string>,
                  gateway: GatewayCall -> Result<GatewayResponse>,
                  parse: string -> Option<Json>): (r: Reply)
    ensures r.status in {200, 400, 402, 429, 500}
    ensures r.body.RoadmapBody? <==> r.status == 200
  {
    match Admit(body, apiKey)
    case Refused(reply) => reply
    case Admitted(call) => Respond(gateway(call), parse)
  }

  // ---- Properties of the handler ---------------------------------------

  /**
    A missing or short dream gets 400 whatever the key, the gateway and the
    parser are: the gateway is not consulted and the key is not looked at.
   */
  lemma ShortDreamRejected(body: Json, key1: Option<string>, key2: Option<string>,
                           gateway1: GatewayCall -> Result<GatewayResponse>,
                           gateway2: GatewayCall -> Result<GatewayResponse>,
                           parse1: string -> Option<Json>, parse2: string -> Option<Json>)
    requires body.Obj?
    requires "dream" !in body.fields
             || (body.fields["dream"].Str? && |body.fields["dream"].s| < MinDreamLength)
    ensures Handle(body, key1, gateway1, parse1) == Handle(body, key2, gateway2, parse2)
    ensures Handle(body, key1, gateway1, parse1) == Reply(400, ErrorBody(DreamTooShortMessage))
  {
  }

  /** A 400 reply happens exactly when the dream check fails. */
  lemma BadRequestExactlyOnShortDream(body: Json, apiKey: Option<string>,
                                      gateway: GatewayCall -> Result<GatewayResponse>,
                                      parse: string -> Option<Json>)
    ensures Handle(body, apiKey, gateway, parse).status == 400
            <==> (!body.Null? && DreamRejected(Field(body, "dream")))
  {
  }

  /** Nothing is forwarded unless the request is admitted: the reply does not depend on the gateway. */
  lemma GatewayOnlyWhenAdmitted(body: Json, apiKey: Option<string>,
                                gateway1: GatewayCall -> Result<GatewayResponse>,
                                gateway2: GatewayCall -> Result<GatewayResponse>,
                                parse1: string -> Option<Json>, parse2: string -> Option<Json>)
    requires Admit(body, apiKey).Refused?
    ensures Handle(body, apiKey, gateway1, parse1) == Handle(body, apiKey, gateway2, parse2)
  {
  }

  /** An accepted dream with no key configured fails with the configuration message. */
  lemma MissingKeyFails(body: Json, apiKey: Option<string>,
                        gateway: GatewayCall -> Result<GatewayResponse>,
                        parse: string -> Option<Json>)
    requires !body.Null? && !DreamRejected(Field(body, "dream"))
    requires apiKey == None || apiKey == Some("")
    ensures Handle(body, apiKey, gateway, parse) == Reply(500, ErrorBody(MissingKeyMessage))
  {
  }

  /** The admitted call carries the key and exactly the request's dream and category. */
  lemma AdmittedCall(body: Json, apiKey: Option<string>)
    requires Admit(body, apiKey).Admitted?
    ensures Field(body, "dream") == Some(Admit(body, apiKey).call.dream)
    ensures Field(body, "category") == Admit(body, apiKey).call.category
    ensures apiKey == Some(Admit(body, apiKey).call.apiKey)
  {
  }

  /** 429 and 402 are passed on with fixed messages, whatever the completion and the parser. */
  lemma QuotaStatusesPassedOn(body: Json, apiKey: Option<string>,
                              gateway: GatewayCall -> Result<GatewayResponse>,
                              parse: string -> Option<Json>)
    requires Admit(body, apiKey).Admitted?
    requires gateway(Admit(body, apiKey).call).Success?
    ensures var status := gateway(Admit(body, apiKey).call).value.status;
            && (status == 429 ==> Handle(body, apiKey, gateway, parse) == Reply(429, ErrorBody(RateLimitMessage)))
            && (status == 402 ==> Handle(body, apiKey, gateway, parse) == Reply(402, ErrorBody(CreditsMessage)))
  {
  }

  /**
    Every other failing status becomes 500 with the status in the message, once
    the error body has been read (a failed read is covered by `ThrownErrorsBecome500`).
   */
  lemma OtherGatewayErrors(body: Json, apiKey: Option<string>,
                           gateway: GatewayCall -> Result<GatewayResponse>,
                           parse: string -> Option<Json>)
    requires Admit(body, apiKey).Admitted?
    requires gateway(Admit(body, apiKey).call).Success?
    requires var status := gateway(Admit(body, apiKey).call).value.status;
             !Ok(status) && status != 429 && status != 402
    requires gateway(Admit(body, apiKey).call).value.errorText.Success?
    ensures Handle(body, apiKey, gateway, parse)
            == Reply(500, ErrorBody(GatewayErrorPrefix
                                    + Decimal.IntToString(gateway(Admit(body, apiKey).call).value.status)))
  {
  }

  /** Distinct gateway statuses give distinct error messages. */
  lemma GatewayErrorMessagesDistinct(status1: int, status2: int)
    requires status1 != status2
    ensures GatewayErrorPrefix + Decimal.IntToString(status1)
            != GatewayErrorPrefix + Decimal.IntToString(status2)
  {
    if GatewayErrorPrefix + Decimal.IntToString(status1) == GatewayErrorPrefix + Decimal.IntToString(status2) {
      var n := |GatewayErrorPrefix|;
      assert (GatewayErrorPrefix + Decimal.IntToString(status1))[n..] == Decimal.IntToString(status1);
      assert (GatewayErrorPrefix + Decimal.IntToString(status2))[n..] == Decimal.IntToString(status2);
      Decimal.IntToStringInjective(status1, status2);
    }
  }

  /**
    A thrown error becomes 500 with its own message. The error may come from
    `fetch`, from reading the completion, or from reading the body of another
    failing status.
   */
  lemma ThrownErrorsBecome500(body: Json, apiKey: Option<string>,
                              gateway: GatewayCall -> Result<GatewayResponse>,
                              parse: string -> Option<Json>, message: string)
    requires Admit(body, apiKey).Admitted?
    requires var outcome := gateway(Admit(body, apiKey).call);
             || outcome == Failure(message)
             || (outcome.Success? && Ok(outcome.value.status) && outcome.value.completion == Failure(message))
             || (&& outcome.Success? && !Ok(outcome.value.status)
                 && outcome.value.status != 429 && outcome.value.status != 402
                 && outcome.value.errorText == Failure(message))
    ensures Handle(body, apiKey, gateway, parse) == Reply(500, ErrorBody(message))
  {
  }

  /**
    On a successful gateway response the stripped completion is parsed; a parse
    failure is 500 with a fixed message and a parsed value is returned unchanged.
   */
  lemma CompletionParsed(body: Json, apiKey: Option<string>,
                         gateway: GatewayCall -> Result<GatewayResponse>,
                         parse: string -> Option<Json>, text: string)
    requires Admit(body, apiKey).Admitted?
    requires var outcome := gateway(Admit(body, apiKey).call);
             outcome.Success? && Ok(outcome.value.status) && outcome.value.completion == Success(text)
    ensures parse(RelayText.StripFences(text)).None?
            ==> Handle(body, apiKey, gateway, parse) == Reply(500, ErrorBody(ParseFailureMessage))
    ensures parse(RelayText.StripFences(text)).Some?
            ==> Handle(body, apiKey, gateway, parse)
                == Reply(200, RoadmapBody(parse(RelayText.StripFences(text)).value))
  {
    var call := Admit(body, apiKey).call;
    assert Handle(body, apiKey, gateway, parse) == Respond(gateway(call), parse);
  }

  /**
    A completion wrapped in a ```json fence gives the same reply as the bare
    payload: the relay parses the same text in both cases.
   */
  lemma FencedCompletionLikeBare(body: Json, apiKey: Option<string>,
                                 fenced: GatewayCall -> Result<GatewayResponse>,
                                 bare: GatewayCall -> Result<GatewayResponse>,
                                 parse: string -> Option<Json>, status: int, errorText: Result<string>,
                                 x: string)
    requires Admit(body, apiKey).Admitted?
    requires RelayText.IsTrimmed(x) && RelayText.NoBacktick(x)
    requires fenced(Admit(body, apiKey).call)
             == Success(GatewayResponse(status, Success("```json\n" + x + "\n```"), errorText))
    requires bare(Admit(body, apiKey).call) == Success(GatewayResponse(status, Success(x), errorText))
    ensures Handle(body, apiKey, fenced, parse) == Handle(body, apiKey, bare, parse)
  {
    var call := Admit(body, apiKey).call;
    assert Handle(body, apiKey, fenced, parse) == Respond(fenced(call), parse);
    assert Handle(body, apiKey, bare, parse) == Respond(bare(call), parse);
    var wrapped := "```json\n" + x + "\n```";
    RelayText.FencedAndBareAgree(x);
    SameStrippedTextSameReply(status, wrapped, x, errorText, parse);
  }

  /** The completion matters only through its cleaned form. */
  lemma SameStrippedTextSameReply(status: int, text1: string, text2: string, errorText: Result<string>,
                                  parse: string -> Option<Json>)
    requires RelayText.StripFences(text1) == RelayText.StripFences(text2)
    ensures Respond(Success(GatewayResponse(status, Success(text1), errorText)), parse)
            == Respond(Success(GatewayResponse(status, Success(text2), errorText)), parse)
  {
    if Ok(status) {
      RespondParsesCleanedText(status, text1, errorText, parse);
      RespondParsesCleanedText(status, text2, errorText, parse);
    } else {
      RespondIgnoresFailedCompletion(status, text1, text2, errorText, parse);
    }
  }

  lemma RespondParsesCleanedText(status: int, text: string, errorText: Result<string>, parse: string -> Option<Json>)
    requires Ok(status)
    ensures Respond(Success(GatewayResponse(status, Success(text), errorText)), parse)
            == ParseCompletion(RelayText.StripFences(text), parse)
  {
  }

  lemma RespondIgnoresFailedCompletion(status: int, text1: string, text2: string, errorText: Result<string>,
                                       parse: string -> Option<Json>)
    requires !Ok(status)
    ensures Respond(Success(GatewayResponse(status, Success(text1), errorText)), parse)
            == Respond(Success(GatewayResponse(status, Success(text2), errorText)), parse)
  {
  }
}

=== FILE: relay_text.dfy ===
/**
  The clean-up the relay applies to the model's completion text before parsing it:
  `text.replace(/```json\n?/g, '').replace(/```\n?/g, '').trim()`.
  Both relay variants use this one definition.
 */
module RelayText {

  const Fence: string := "```"

  /** Three backticks start at position `i` of `s`. */
  predicate FenceAt(s: string, i: int) {
    0 <= i && i + 3 <= |s| && s[i] == '`' && s[i + 1] == '`' && s[i + 2] == '`'
  }

  /** The seven characters "```json" start at position `i` of `s`. */
  predicate JsonFenceAt(s: string, i: int) {
    FenceAt(s, i) && i + 7 <= |s|
    && s[i + 3] == 'j' && s[i + 4] == 's' && s[i + 5] == 'o' && s[i + 6] == 'n'
  }

  predicate NewlineAt(s: string, i: int) {
    0 <= i < |s| && s[i] == '\n'
  }

  predicate NoFence(s: string) {
    forall i | 0 <= i < |s| :: !FenceAt(s, i)
  }

  predicate NoBacktick(s: string) {
    forall k | 0 <= k < |s| :: s[k] != '`'
  }

  /** The characters String.prototype.trim removes: WhiteSpace and LineTerminator of ECMAScript. */
  predicate IsWhitespace(c: char) {
    || c == '\t' || c == '\n' || c == '\U{000B}' || c == '\U{000C}' || c == '\r'
    || c == ' ' || c == '\U{00A0}' || c == '\U{1680}'
    || ('\U{2000}' <= c <= '\U{200A}')
    || c == '\U{2028}' || c == '\U{2029}' || c == '\U{202F}' || c == '\U{205F}'
    || c == '\U{3000}' || c == '\U{FEFF}'
  }

  /** Neither end of `s` is whitespace. */
  predicate IsTrimmed(s: string) {
    s == [] || (!IsWhitespace(s[0]) && !IsWhitespace(s[|s| - 1]))
  }

  /** Drops the leading whitespace: the result is a suffix and everything dropped is whitespace. */
  function TrimStart(s: string): (r: string)
    ensures |r| <= |s| && r == s[|s| - |r|..]
    ensures r == [] || !IsWhitespace(r[0])
    ensures forall k | 0 <= k < |s| - |r| :: IsWhitespace(s[k])
  {
    if s != [] && IsWhitespace(s[0]) then TrimStart(s[1..]) else s
  }

  /** Drops the trailing whitespace: the result is a prefix and everything dropped is whitespace. */
  function TrimEnd(s: string): (r: string)
    ensures |r| <= |s| && r == s[..|r|]
    ensures r == [] || !IsWhitespace(r[|r| - 1])
    ensures forall k | |r| <= k < |s| :: IsWhitespace(s[k])
  {
    if s != [] && IsWhitespace(s[|s| - 1]) then TrimEnd(s[..|s| - 1]) else s
  }

  function Trim(s: string): string {
    TrimEnd(TrimStart(s))
  }

  /** Trimming leaves a trimmed string alone and removes nothing but whitespace. */
  lemma TrimResult(s: string)
    ensures IsTrimmed(Trim(s))
    ensures IsTrimmed(s) ==> Trim(s) == s
  {
    var t := TrimStart(s);
    var r := TrimEnd(t);
    if r != [] {
      assert r[0] == t[0];
    }
  }

  /** `s.replace(/```json\n?/g, '')`: a left-to-right scan removing each match. */
  function RemoveJsonFences(s: string): string
    decreases |s|
  {
    if JsonFenceAt(s, 0) then RemoveJsonFences(s[if NewlineAt(s, 7) then 8 else 7..])
    else if s == [] then []
    else [s[0]] + RemoveJsonFences(s[1..])
  }

  /** `s.replace(/```\n?/g, '')`: a left-to-right scan removing each match. */
  function RemoveFences(s: string): string
    decreases |s|
  {
    if FenceAt(s, 0) then RemoveFences(s[if NewlineAt(s, 3) then 4 else 3..])
    else if s == [] then []
    else [s[0]] + RemoveFences(s[1..])
  }

  /** The whole clean-up step of the relay. */
  function StripFences(text: string): string {
    Trim(RemoveFences(RemoveJsonFences(text)))
  }

  // ---- Proofs ----------------------------------------------------------

  lemma NoFenceAfterDrop(s: string, k: nat)
    requires NoFence(s) && k <= |s|
    ensures NoFence(s[k..])
  {
    forall i | 0 <= i < |s[k..]| ensures !FenceAt(s[k..], i) {
      assert !FenceAt(s, i + k);
    }
  }

  lemma NoFenceAfterTake(s: string, k: nat)
    requires NoFence(s) && k <= |s|
    ensures NoFence(s[..k])
  {
    forall i | 0 <= i < k ensures !FenceAt(s[..k], i) {
      assert !FenceAt(s, i);
    }
  }

  /** Text without backticks passes through either removal untouched. */
  lemma {:induction false} PassThrough(a: string, b: string)
    requires NoBacktick(a)
    ensures RemoveJsonFences(a + b) == a + RemoveJsonFences(b)
    ensures RemoveFences(a + b) == a + RemoveFences(b)
    decreases |a|
  {
    if a != [] {
      var s := a + b;
      assert s[0] == a[0] && !FenceAt(s, 0);
      assert s[1..] == a[1..] + b;
      RemoveJsonFencesStep(s);
      PassThrough(a[1..], b);
      assert a == [a[0]] + a[1..];
    } else {
      assert a + b == b;
    }
  }

  /** Without any three backticks in a row, neither removal finds a match. */
  lemma {:induction false} RemovalsKeepUnfenced(s: string)
    requires NoFence(s)
    ensures RemoveJsonFences(s) == s
    ensures RemoveFences(s) == s
    decreases |s|
  {
    if s != [] {
      assert !FenceAt(s, 0);
      NoFenceAfterDrop(s, 1);
      RemoveJsonFencesStep(s);
      RemovalsKeepUnfenced(s[1..]);
    }
  }

  lemma RemoveJsonFencesStep(s: string)
    requires s != [] && !FenceAt(s, 0)
    ensures RemoveJsonFences(s) == [s[0]] + RemoveJsonFences(s[1..])
    ensures RemoveFences(s) == [s[0]] + RemoveFences(s[1..])
  {
  }

  /** A string not starting with a backtick keeps its first character through RemoveFences. */
  lemma RemoveFencesFirst(s: string)
    requires s != [] && s[0] != '`'
    ensures RemoveFences(s) != [] && RemoveFences(s)[0] == s[0]
  {
    RemoveJsonFencesStep(s);
  }

  /** No three backticks in a row survive RemoveFences. */
  lemma {:induction false} RemoveFencesLeavesNoFence(s: string)
    ensures NoFence(RemoveFences(s))
    decreases |s|
  {
    if FenceAt(s, 0) {
      RemoveFencesLeavesNoFence(s[if NewlineAt(s, 3) then 4 else 3..]);
    } else if s != [] {
      var t := s[1..];
      var rest := RemoveFences(t);
      var r := RemoveFences(s);
      RemoveFencesLeavesNoFence(t);
      assert r == [s[0]] + rest;
      forall i | 0 <= i < |r| ensures !FenceAt(r, i) {
        if i > 0 {
          assert !FenceAt(rest, i - 1);
        } else if s[0] == '`' && |r| >= 3 {
          // s does not start with three backticks, so t does not start with two
          assert t != [];
          if t[0] == '`' {
            assert |t| == 1 || t[1] != '`';
            assert !FenceAt(t, 0);
            RemoveJsonFencesStep(t);
            if |t| > 1 {
              RemoveFencesFirst(t[1..]);
            }
            assert rest[1] != '`';
          } else {
            RemoveFencesFirst(t);
          }
        }
      }
    }
  }

  // ---- What the clean-up promises --------------------------------------

  /** The cleaned text never has whitespace at either end and never holds a fence marker. */
  lemma StripFencesResult(text: string)
    ensures IsTrimmed(StripFences(text))
    ensures NoFence(StripFences(text))
  {
    var u := RemoveFences(RemoveJsonFences(text));
    RemoveFencesLeavesNoFence(RemoveJsonFences(text));
    TrimResult(u);
    TrimKeepsNoFence(u);
  }

  /** Trimming cuts only whole ends off, so it creates no fence marker. */
  lemma TrimKeepsNoFence(u: string)
    requires NoFence(u)
    ensures NoFence(Trim(u))
  {
    var t := TrimStart(u);
    assert t == u[|u| - |t|..];
    NoFenceAfterDrop(u, |u| - |t|);
    var r := TrimEnd(t);
    assert r == t[..|r|];
    NoFenceAfterTake(t, |r|);
  }

  /** Text with no three backticks in a row is only trimmed. */
  lemma StripUnfenced(text: string)
    requires NoFence(text)
    ensures StripFences(text) == Trim(text)
  {
    RemovalsKeepUnfenced(text);
  }

  /** The ```json removal takes off the opening marker and its newline, and nothing else. */
  lemma JsonFenceRemoved(x: string)
    requires NoBacktick(x)
    ensures RemoveJsonFences("```json\n" + x + "\n```") == x + "\n" + Fence
  {
    var s := "```json\n" + x + "\n```";
    assert JsonFenceAt(s, 0) && NewlineAt(s, 7);
    assert s[8..] == x + ("\n" + Fence);
    PassThrough(x, "\n" + Fence);
    PassThrough("\n", Fence);
    assert RemoveJsonFences(Fence) == Fence by {
      assert !JsonFenceAt(Fence, 0);
      assert Fence[1..] == "``";
      assert "``"[1..] == "`";
    }
  }

  /** The bare ``` removal then takes off the closing marker. */
  lemma ClosingFenceRemoved(x: string)
    requires NoBacktick(x)
    ensures RemoveFences(x + "\n" + Fence) == x + "\n"
  {
    assert NoBacktick(x + "\n");
    PassThrough(x + "\n", Fence);
    assert RemoveFences(Fence) == [] by {
      assert FenceAt(Fence, 0) && !NewlineAt(Fence, 3);
      assert Fence[3..] == [];
    }
  }

  /** Trimming a trimmed string followed by a newline gives back the string. */
  lemma TrimTrailingNewline(x: string)
    requires IsTrimmed(x)
    ensures Trim(x + "\n") == x
  {
    var u := x + "\n";
    TrimResult(x);
    if x == [] {
      assert TrimStart(u) == [];
    } else {
      assert TrimStart(u) == u;
      assert u[..|u| - 1] == x;
      assert TrimEnd(u) == TrimEnd(x);
    }
  }

  /** A trimmed, backtick-free payload wrapped in a ```json fence comes out exactly. */
  lemma StripFenced(x: string)
    requires IsTrimmed(x) && NoBacktick(x)
    ensures StripFences("```json\n" + x + "\n```") == x
  {
    JsonFenceRemoved(x);
    ClosingFenceRemoved(x);
    TrimTrailingNewline(x);
  }

  /** A fenced payload and the bare payload clean up alike. */
  lemma FencedAndBareAgree(x: string)
    requires IsTrimmed(x) && NoBacktick(x)
    ensures StripFences("```json\n" + x + "\n```") == StripFences(x) == x
  {
    StripFenced(x);
    forall i | 0 <= i < |x| ensures !FenceAt(x, i) { }
    StripUnfenced(x);
    TrimResult(x);
  }
}

=== FILE: render_server.dfy ===
/**
  The Express variant of the relay: the `POST /generate-roadmap` route of
  render-server.js. `express.json()` has already parsed the body; the route's
  try/catch is a labelled block that a thrown error leaves with its message.
 */
module RenderServer {
  import opened Wrappers
  import opened JsonValues
  import Decimal
  import RelayText
  import opened Relay

  /** One request through the route: the reply it sends, which is always the relay's. */
  method PostGenerateRoadmap(body: Json, apiKey: Option<string>,
                             gateway: GatewayCall -> Result<GatewayResponse>,
                             parse: string -> Option<Json>)
    returns (res: Reply)
    ensures res == Handle(body, apiKey, gateway, parse)
  {
    var thrown := "";
    label try: {
      var fields := Destructure(body);
      if fields.Failure? {
        thrown := fields.message;
        break try;
      }
      var dream, category := fields.value.dream, fields.value.category;
      if DreamRejected(dream) {
        return Reply(400, ErrorBody(DreamTooShortMessage));
      }
      if !KeyConfigured(apiKey) {
        thrown := MissingKeyMessage;
        break try;
      }
      var response := gateway(GatewayCall(apiKey.value, dream.value, category));
      if response.Failure? {
        thrown := response.message;
        break try;
      }
      var status := response.value.status;
      if !Ok(status) {
        if status == 429 {
          return Reply(429, ErrorBody(RateLimitMessage));
        }
        if status == 402 {
          return Reply(402, ErrorBody(CreditsMessage));
        }
        // `await response.text()` can itself throw
        if response.value.errorText.Failure? {
          thrown := response.value.errorText.message;
          break try;
        }
        thrown := GatewayErrorPrefix + Decimal.IntToString(status);
        break try;
      }
      if response.value.completion.Failure? {
        thrown := response.value.completion.message;
        break try;
      }
      var roadmapText := response.value.completion.value;
      roadmapText := RelayText.StripFences(roadmapText);
      var roadmap := parse(roadmapText);
      if roadmap.None? {
        thrown := ParseFailureMessage;
        break try;
      }
      return Reply(200, RoadmapBody(roadmap.value));
    }
    res := Reply(500, ErrorBody(thrown));
  }
}

=== FILE: roadmap_display.dfy ===
/**
  The roadmap viewer (src/components/RoadmapDisplay.tsx): the roadmap it is
  given, the two pieces of UI state it keeps (expanded phase numbers and
  completed milestone keys), the toggles that change them, and the counts and
  progress ratios derived from them.
 */
module RoadmapDisplay {
  import Decimal

  datatype Milestone = Milestone(
    title: string,
    description: string,
    deadline: string,
    skills: seq<string>,
    resources: seq<string>,
    metrics: string)

  datatype Phase = Phase(
    phaseNumber: int,
    phaseName: string,
    description: string,
    duration: string,
    milestones: seq<Milestone>)

  datatype Roadmap = Roadmap(goalTitle: string, estimatedDuration: string, phases: seq<Phase>)

  // ---- Milestone keys ---------------------------------------------------

  /** The completion key `${phaseNumber}-${milestoneIndex}`. */
  function MilestoneKey(phaseNumber: int, milestoneIndex: nat): string {
    Decimal.IntToString(phaseNumber) + "-" + Decimal.NatToString(milestoneIndex)
  }

  /** Distinct (phase number, index) pairs never share a key, so never share completion state. */
  lemma MilestoneKeyInjective(phase1: int, index1: nat, phase2: int, index2: nat)
    requires MilestoneKey(phase1, index1) == MilestoneKey(phase2, index2)
    ensures phase1 == phase2 && index1 == index2
  {
    var a1, d1 := Decimal.IntToString(phase1), Decimal.NatToString(index1);
    var a2, d2 := Decimal.IntToString(phase2), Decimal.NatToString(index2);
    var s := MilestoneKey(phase1, index1);
    assert s == a1 + "-" + d1 == a2 + "-" + d2;
    DashBeforeDigits(a1, d1, a2, d2);
    DashBeforeDigits(a2, d2, a1, d1);
    assert a1 == s[..|a1|] && a2 == s[..|a2|];
    assert d1 == s[|a1| + 1..] && d2 == s[|a2| + 1..];
    Decimal.IntToStringInjective(phase1, phase2);
    Decimal.NatToStringInjective(index1, index2);
  }

  /**
    In `a1 + "-" + d1 == a2 + "-" + d2` with `d2` all digits, the first dash cannot
    sit among the digits of `d2`, so `d2` is no longer than `d1`.
   */
  lemma DashBeforeDigits(a1: string, d1: string, a2: string, d2: string)
    requires a1 + "-" + d1 == a2 + "-" + d2
    requires Decimal.AllDigits(d2)
    ensures |d2| <= |d1|
  {
    var s, t := a1 + "-" + d1, a2 + "-" + d2;
    assert s[|a1|] == '-';
    forall r | |a2| + 1 <= r < |t| ensures Decimal.IsDigit(t[r]) {
      assert t[r] == d2[r - |a2| - 1];
    }
  }

  // ---- The symmetric toggle ---------------------------------------------

  /** Copy the set, then delete `x` if present and add it otherwise. */
  function Toggle<T>(s: set<T>, x: T): (r: set<T>)
    ensures x in r <==> x !in s
    ensures forall y | y in s + r && y != x :: y in r <==> y in s
  {
    if x in s then s - {x} else s + {x}
  }

  /** Toggling twice restores the set. */
  lemma ToggleTwice<T>(s: set<T>, x: T)
    ensures Toggle(Toggle(s, x), x) == s
  {
  }

  // ---- Counting ---------------------------------------------------------

  /**
    `phase.milestones.filter((_, idx) => completed.has(key(idx))).length`
    for a phase with `count` milestones: never more than `count`.
   */
  function CompletedInPhase(phaseNumber: int, count: nat, completed: set<string>): (n: nat)
    ensures n <= count
  {
    if count == 0 then 0
    else CompletedInPhase(phaseNumber, count - 1, completed)
         + (if MilestoneKey(phaseNumber, count - 1) in completed then 1 else 0)
  }

  /** `phaseCompleted` for one phase. */
  function PhaseCompleted(phase: Phase, completed: set<string>): nat {
    CompletedInPhase(phase.phaseNumber, |phase.milestones|, completed)
  }

  /** The indices below `count` whose key is marked complete. */
  function CompletedIndices(phaseNumber: int, count: nat, completed: set<string>): set<nat> {
    set i: nat | i < count && MilestoneKey(phaseNumber, i) in completed
  }

  /** `phaseCompleted` counts exactly the indices below the milestone count whose key is completed. */
  lemma {:induction false} PhaseCompletedCountsIndices(phaseNumber: int, count: nat, completed: set<string>)
    ensures CompletedInPhase(phaseNumber, count, completed) == |CompletedIndices(phaseNumber, count, completed)|
  {
    if count > 0 {
      PhaseCompletedCountsIndices(phaseNumber, count - 1, completed);
      var below := CompletedIndices(phaseNumber, count - 1, completed);
      var last := count - 1;
      if MilestoneKey(phaseNumber, last) in completed {
        assert CompletedIndices(phaseNumber, count, completed) == below + {last};
        assert last !in below;
      } else {
        assert CompletedIndices(phaseNumber, count, completed) == below;
      }
    }
  }

  /** The keys of the first `count` milestones of a phase. */
  function PhaseKeys(phaseNumber: int, count: nat): set<string> {
    if count == 0 then {} else PhaseKeys(phaseNumber, count - 1) + {MilestoneKey(phaseNumber, count - 1)}
  }

  lemma {:induction false} PhaseKeysContains(phaseNumber: int, count: nat, index: nat)
    requires index < count
    ensures MilestoneKey(phaseNumber, index) in PhaseKeys(phaseNumber, count)
  {
    if index < count - 1 {
      PhaseKeysContains(phaseNumber, count - 1, index);
    }
  }

  lemma {:induction false} PhaseKeysOnly(phaseNumber: int, count: nat, otherPhase: int, index: nat)
    requires MilestoneKey(otherPhase, index) in PhaseKeys(phaseNumber, count)
    ensures otherPhase == phaseNumber && index < count
  {
    if MilestoneKey(otherPhase, index) == MilestoneKey(phaseNumber, count - 1) {
      MilestoneKeyInjective(otherPhase, index, phaseNumber, count - 1);
    } else {
      PhaseKeysOnly(phaseNumber, count - 1, otherPhase, index);
    }
  }

  lemma {:induction false} PhaseKeysCount(phaseNumber: int, count: nat)
    ensures |PhaseKeys(phaseNumber, count)| == count
  {
    if count > 0 {
      PhaseKeysCount(phaseNumber, count - 1);
      if MilestoneKey(phaseNumber, count - 1) in PhaseKeys(phaseNumber, count - 1) {
        PhaseKeysOnly(phaseNumber, count - 1, phaseNumber, count - 1);
      }
    }
  }

  lemma {:induction false} PhaseKeysDisjoint(phase1: int, count1: nat, phase2: int, count2: nat)
    requires phase1 != phase2
    ensures PhaseKeys(phase1, count1) !! PhaseKeys(phase2, count2)
  {
    if count1 > 0 {
      PhaseKeysDisjoint(phase1, count1 - 1, phase2, count2);
      if MilestoneKey(phase1, count1 - 1) in PhaseKeys(phase2, count2) {
        PhaseKeysOnly(phase2, count2, phase1, count1 - 1);
      }
    }
  }

  /** A phase's completed count is the size of its keys' overlap with the completed set. */
  lemma {:induction false} CompletedInPhaseIsOverlap(phaseNumber: int, count: nat, completed: set<string>)
    ensures CompletedInPhase(phaseNumber, count, completed) == |PhaseKeys(phaseNumber, count) * completed|
  {
    if count > 0 {
      CompletedInPhaseIsOverlap(phaseNumber, count - 1, completed);
      var key := MilestoneKey(phaseNumber, count - 1);
      var before := PhaseKeys(phaseNumber, count - 1) * completed;
      if key in PhaseKeys(phaseNumber, count - 1) {
        PhaseKeysOnly(phaseNumber, count - 1, phaseNumber, count - 1);
      }
      if key in completed {
        assert PhaseKeys(phaseNumber, count) * completed == before + {key};
      } else {
        assert PhaseKeys(phaseNumber, count) * completed == before;
      }
    }
  }

  /**
    The key of every milestone checkbox the viewer can show, phase by phase. A
    phase's checkboxes appear once that phase is expanded, so this includes the
    keys of collapsed phases.
   */
  function RenderedKeys(phases: seq<Phase>): set<string> {
    if phases == [] then {}
    else PhaseKeys(phases[0].phaseNumber, |phases[0].milestones|) + RenderedKeys(phases[1..])
  }

  /** Some phase with this number has a milestone at this index (expanded or not). */
  predicate IsRendered(phases: seq<Phase>, phaseNumber: int, index: nat) {
    exists j | 0 <= j < |phases| :: phases[j].phaseNumber == phaseNumber && index < |phases[j].milestones|
  }

  predicate UniquePhaseNumbers(phases: seq<Phase>) {
    forall j, k | 0 <= j < k < |phases| :: phases[j].phaseNumber != phases[k].phaseNumber
  }

  /** The rendered keys are exactly the keys of rendered (phase, index) pairs. */
  lemma {:induction false} RenderedKeysExactly(phases: seq<Phase>, phaseNumber: int, index: nat)
    ensures MilestoneKey(phaseNumber, index) in RenderedKeys(phases) <==> IsRendered(phases, phaseNumber, index)
  {
    if phases != [] {
      RenderedKeysExactly(phases[1..], phaseNumber, index);
      var first := phases[0];
      if MilestoneKey(phaseNumber, index) in PhaseKeys(first.phaseNumber, |first.milestones|) {
        PhaseKeysOnly(first.phaseNumber, |first.milestones|, phaseNumber, index);
      }
      if first.phaseNumber == phaseNumber && index < |first.milestones| {
        PhaseKeysContains(phaseNumber, |first.milestones|, index);
      }
      if IsRendered(phases[1..], phaseNumber, index) {
        var j :| 0 <= j < |phases[1..]| && phases[1..][j].phaseNumber == phaseNumber
                 && index < |phases[1..][j].milestones|;
        assert phases[j + 1] == phases[1..][j];
      }
      if IsRendered(phases, phaseNumber, index) && !(first.phaseNumber == phaseNumber && index < |first.milestones|) {
        var j :| 0 <= j < |phases| && phases[j].phaseNumber == phaseNumber && index < |phases[j].milestones|;
        assert j > 0 && phases[1..][j - 1] == phases[j];
      }
    }
  }

  lemma {:induction false} PhaseKeysOutside(phaseNumber: int, count: nat, phases: seq<Phase>)
    requires forall j | 0 <= j < |phases| :: phases[j].phaseNumber != phaseNumber
    ensures PhaseKeys(phaseNumber, count) !! RenderedKeys(phases)
  {
    if phases != [] {
      PhaseKeysDisjoint(phaseNumber, count, phases[0].phaseNumber, |phases[0].milestones|);
      PhaseKeysOutside(phaseNumber, count, phases[1..]);
    }
  }

  lemma {:induction false} PhaseKeysWithinRendered(phases: seq<Phase>, j: nat)
    requires j < |phases|
    ensures PhaseKeys(phases[j].phaseNumber, |phases[j].milestones|) <= RenderedKeys(phases)
  {
    if j > 0 {
      assert phases[1..][j - 1] == phases[j];
      PhaseKeysWithinRendered(phases[1..], j - 1);
    }
  }

  lemma UniqueTail(phases: seq<Phase>)
    requires phases != [] && UniquePhaseNumbers(phases)
    ensures UniquePhaseNumbers(phases[1..])
    ensures PhaseKeys(phases[0].phaseNumber, |phases[0].milestones|) !! RenderedKeys(phases[1..])
  {
    forall j | 0 <= j < |phases[1..]| ensures phases[1..][j].phaseNumber != phases[0].phaseNumber {
      assert phases[1..][j] == phases[j + 1];
    }
    PhaseKeysOutside(phases[0].phaseNumber, |phases[0].milestones|, phases[1..]);
  }

  /** The sum of `milestones.length` over the phases. */
  function MilestoneSum(phases: seq<Phase>): nat {
    if phases == [] then 0 else |phases[0].milestones| + MilestoneSum(phases[1..])
  }

  /** The sum of `phaseCompleted` over the phases. */
  function SumPhaseCompleted(phases: seq<Phase>, completed: set<string>): nat {
    if phases == [] then 0 else PhaseCompleted(phases[0], completed) + SumPhaseCompleted(phases[1..], completed)
  }

  /** `roadmap.phases.reduce((acc, phase) => acc + phase.milestones.length, acc)`. */
  function ReduceLengths(phases: seq<Phase>, acc: nat): nat {
    if phases == [] then acc else ReduceLengths(phases[1..], acc + |phases[0].milestones|)
  }

  /** `totalMilestones`. */
  function TotalMilestones(phases: seq<Phase>): nat {
    ReduceLengths(phases, 0)
  }

  lemma {:induction false} ReduceLengthsIsSum(phases: seq<Phase>, acc: nat)
    ensures ReduceLengths(phases, acc) == acc + MilestoneSum(phases)
  {
    if phases != [] {
      ReduceLengthsIsSum(phases[1..], acc + |phases[0].milestones|);
    }
  }

  /** `totalMilestones` is the sum of the phases' milestone counts. */
  lemma TotalMilestonesIsSum(phases: seq<Phase>)
    ensures TotalMilestones(phases) == MilestoneSum(phases)
  {
    ReduceLengthsIsSum(phases, 0);
  }

  /** With unique phase numbers, every milestone has its own key. */
  lemma {:induction false} RenderedKeysCount(phases: seq<Phase>)
    requires UniquePhaseNumbers(phases)
    ensures |RenderedKeys(phases)| == MilestoneSum(phases)
  {
    if phases != [] {
      UniqueTail(phases);
      RenderedKeysCount(phases[1..]);
      PhaseKeysCount(phases[0].phaseNumber, |phases[0].milestones|);
    }
  }

  /** With unique phase numbers, the per-phase counts add up to the overlap with the rendered keys. */
  lemma {:induction false} SumPhaseCompletedIsOverlap(phases: seq<Phase>, completed: set<string>)
    requires UniquePhaseNumbers(phases)
    ensures SumPhaseCompleted(phases, completed) == |RenderedKeys(phases) * completed|
  {
    if phases != [] {
      UniqueTail(phases);
      SumPhaseCompletedIsOverlap(phases[1..], completed);
      var first := PhaseKeys(phases[0].phaseNumber, |phases[0].milestones|);
      CompletedInPhaseIsOverlap(phases[0].phaseNumber, |phases[0].milestones|, completed);
      assert RenderedKeys(phases) * completed
             == (first * completed) + (RenderedKeys(phases[1..]) * completed);
      assert (first * completed) !! (RenderedKeys(phases[1..]) * completed);
    }
  }

  /**
    When only rendered milestones have been ticked and phase numbers are unique,
    `completedCount` is the sum of the per-phase counts and never exceeds
    `totalMilestones`.
   */
  lemma CompletedCountConsistent(phases: seq<Phase>, completed: set<string>)
    requires UniquePhaseNumbers(phases)
    requires completed <= RenderedKeys(phases)
    ensures |completed| == SumPhaseCompleted(phases, completed)
    ensures |completed| <= TotalMilestones(phases)
  {
    var rendered := RenderedKeys(phases);
    SumPhaseCompletedIsOverlap(phases, completed);
    assert rendered * completed == completed;
    RenderedKeysCount(phases);
    TotalMilestonesIsSum(phases);
    SubsetNoLarger(completed, rendered);
  }

  /**
    Repeated phase numbers can only merge keys, so there are never more keys
    than milestones, whether or not phase numbers are unique.
   */
  lemma {:induction false} RenderedKeysAtMost(phases: seq<Phase>)
    ensures |RenderedKeys(phases)| <= MilestoneSum(phases)
  {
    if phases != [] {
      var first := PhaseKeys(phases[0].phaseNumber, |phases[0].milestones|);
      PhaseKeysCount(phases[0].phaseNumber, |phases[0].milestones|);
      RenderedKeysAtMost(phases[1..]);
      UnionNoLarger(first, RenderedKeys(phases[1..]));
    }
  }

  lemma UnionNoLarger(a: set<string>, b: set<string>)
    ensures |a + b| <= |a| + |b|
  {
    assert a + b == a + (b - a);
    assert b == (b - a) + (b * a);
  }

  lemma SubsetNoLarger(a: set<string>, b: set<string>)
    requires a <= b
    ensures |a| <= |b|
  {
    assert b == a + (b - a);
  }

  // ---- Progress ---------------------------------------------------------

  /**
    `(done / total) * 100` in exact arithmetic; `Undefined` is the NaN (or
    Infinity) that JavaScript gives when `total` is 0.
   */
  datatype Progress = Percent(value: real) | Undefined

  function Percentage(done: nat, total: nat): (p: Progress)
    ensures p.Undefined? <==> total == 0
    ensures p.Percent? && done <= total ==> 0.0 <= p.value <= 100.0
    ensures p.Percent? ==> (p.value == 100.0 <==> done == total)
    ensures p.Percent? && done > total ==> p.value > 100.0
  {
    if total == 0 then Undefined
    else
      var ratio := done as real / total as real;
      assert ratio * total as real == done as real;
      SignOfScaled(ratio - 1.0, total as real);
      SignOfScaled(ratio, total as real);
      Percent(ratio * 100.0)
  }

  /** Scaling by a positive factor keeps the sign. */
  lemma SignOfScaled(a: real, t: real)
    requires t > 0.0
    ensures a > 0.0 <==> a * t > 0.0
    ensures a == 0.0 <==> a * t == 0.0
  {
  }

  /**
    When every rendered milestone is complete (and phase numbers are unique), the
    overall progress and every non-empty phase's progress are 100.
   */
  lemma AllCompleteIsFullProgress(phases: seq<Phase>, completed: set<string>)
    requires UniquePhaseNumbers(phases)
    requires completed == RenderedKeys(phases)
    ensures TotalMilestones(phases) > 0 ==> Percentage(|completed|, TotalMilestones(phases)) == Percent(100.0)
    ensures forall j | 0 <= j < |phases| && |phases[j].milestones| > 0 ::
              Percentage(PhaseCompleted(phases[j], completed), |phases[j].milestones|) == Percent(100.0)
  {
    CompletedCountConsistent(phases, completed);
    RenderedKeysCount(phases);
    TotalMilestonesIsSum(phases);
    forall j | 0 <= j < |phases| && |phases[j].milestones| > 0
      ensures Percentage(PhaseCompleted(phases[j], completed), |phases[j].milestones|) == Percent(100.0)
    {
      var p := phases[j];
      PhaseKeysWithinRendered(phases, j);
      CompletedInPhaseIsOverlap(p.phaseNumber, |p.milestones|, completed);
      assert PhaseKeys(p.phaseNumber, |p.milestones|) * completed == PhaseKeys(p.phaseNumber, |p.milestones|);
      PhaseKeysCount(p.phaseNumber, |p.milestones|);
    }
  }

  /**
    Ticks left over from a larger roadmap overflow a smaller one. Suppose every
    milestone of `before` is ticked and the viewer is then shown `after`, which has
    fewer milestones. Then the completed count exceeds the new total, and the
    overall progress is above 100.
   */
  lemma StaleTicksOverflow(before: seq<Phase>, after: seq<Phase>, completed: set<string>)
    requires UniquePhaseNumbers(before) && completed == RenderedKeys(before)
    requires 0 < TotalMilestones(after) < TotalMilestones(before)
    ensures |completed| > TotalMilestones(after)
    ensures Percentage(|completed|, TotalMilestones(after)).value > 100.0
  {
    RenderedKeysCount(before);
    TotalMilestonesIsSum(before);
  }

  // ---- The viewer's state -----------------------------------------------

  /**
    One mounted viewer and its `roadmap` prop. `src/pages/Index.tsx` unmounts it
    only through Regenerate. A roadmap generated while it is shown replaces the
    prop of the same mounted viewer.
   */
  class Viewer {
    var roadmap: Roadmap
    var expandedPhases: set<int>
    var completedMilestones: set<string>

    /** Only checkboxes the viewer renders have been ticked. */
    predicate OnlyRenderedCompleted()
      reads this
    {
      completedMilestones <= RenderedKeys(roadmap.phases)
    }

    /** Phase 1 starts expanded and nothing starts completed. */
    constructor (roadmap: Roadmap)
      ensures this.roadmap == roadmap
      ensures expandedPhases == {1} && completedMilestones == {}
      ensures OnlyRenderedCompleted()
    {
      this.roadmap := roadmap;
      expandedPhases := {1};
      completedMilestones := {};
    }

    /** Flips whether one phase is expanded. */
    method TogglePhase(phaseNumber: int)
      modifies this
      ensures expandedPhases == Toggle(old(expandedPhases), phaseNumber)
      ensures IsExpanded(phaseNumber) == !old(IsExpanded(phaseNumber))
      ensures completedMilestones == old(completedMilestones) && roadmap == old(roadmap)
    {
      var newExpanded := expandedPhases;
      if phaseNumber in newExpanded {
        newExpanded := newExpanded - {phaseNumber};
      } else {
        newExpanded := newExpanded + {phaseNumber};
      }
      expandedPhases := newExpanded;
    }

    /**
      Flips the completion of one milestone; no other (phase, index) pair changes,
      and ticking a rendered checkbox keeps the completed set within the rendered keys.
     */
    method ToggleMilestone(phaseNumber: int, milestoneIndex: nat)
      modifies this
      ensures completedMilestones == Toggle(old(completedMilestones), MilestoneKey(phaseNumber, milestoneIndex))
      ensures IsCompleted(phaseNumber, milestoneIndex) == !old(IsCompleted(phaseNumber, milestoneIndex))
      ensures expandedPhases == old(expandedPhases) && roadmap == old(roadmap)
      ensures forall p: int, i: nat | p != phaseNumber || i != milestoneIndex ::
                (MilestoneKey(p, i) in completedMilestones <==> MilestoneKey(p, i) in old(completedMilestones))
      ensures old(OnlyRenderedCompleted()) && IsRendered(roadmap.phases, phaseNumber, milestoneIndex)
              ==> OnlyRenderedCompleted()
    {
      var key := MilestoneKey(phaseNumber, milestoneIndex);
      var newCompleted := completedMilestones;
      if key in newCompleted {
        newCompleted := newCompleted - {key};
      } else {
        newCompleted := newCompleted + {key};
      }
      completedMilestones := newCompleted;
      forall p: int, i: nat | p != phaseNumber || i != milestoneIndex
        ensures MilestoneKey(p, i) != key
      {
        if MilestoneKey(p, i) == key {
          MilestoneKeyInjective(p, i, phaseNumber, milestoneIndex);
        }
      }
      if IsRendered(roadmap.phases, phaseNumber, milestoneIndex) {
        RenderedKeysExactly(roadmap.phases, phaseNumber, milestoneIndex);
      }
    }

    /**
      A new `roadmap` prop while the viewer stays mounted: React keeps both state
      sets, so ticks of the old roadmap stay counted (see `StaleTicksOverflow`).
     */
    method ReceiveRoadmap(r: Roadmap)
      modifies this
      ensures roadmap == r
      ensures expandedPhases == old(expandedPhases) && completedMilestones == old(completedMilestones)
    {
      roadmap := r;
    }

    /**
      A new roadmap with the state a fresh mount gives it: phase 1 expanded and no
      ticks, so only rendered keys are completed and the counts stay consistent.
     */
    method ReceiveRoadmapReset(r: Roadmap)
      modifies this
      ensures roadmap == r
      ensures expandedPhases == {1} && completedMilestones == {}
      ensures OnlyRenderedCompleted()
    {
      roadmap := r;
      expandedPhases := {1};
      completedMilestones := {};
    }

    predicate IsExpanded(phaseNumber: int)
      reads this
    {
      phaseNumber in expandedPhases
    }

    /** The checkbox state of one milestone. */
    predicate IsCompleted(phaseNumber: int, milestoneIndex: nat)
      reads this
    {
      MilestoneKey(phaseNumber, milestoneIndex) in completedMilestones
    }

    /** `completedCount`. */
    function CompletedCount(): nat
      reads this
    {
      |completedMilestones|
    }

    /** `progressPercentage`. */
    function OverallProgress(): Progress
      reads this
    {
      Percentage(CompletedCount(), TotalMilestones(roadmap.phases))
    }

    /** `phaseProgress` of the phase at position `j`. */
    function PhaseProgress(j: nat): Progress
      requires j < |roadmap.phases|
      reads this
    {
      Percentage(PhaseCompleted(roadmap.phases[j], completedMilestones), |roadmap.phases[j].milestones|)
    }
  }

  /**
    A viewer whose ticks all came from rendered checkboxes shows progress between
    0 and 100, even when phase numbers repeat.
   */
  lemma ViewerProgressInRange(v: Viewer)
    requires v.OnlyRenderedCompleted()
    ensures v.CompletedCount() <= TotalMilestones(v.roadmap.phases)
    ensures v.OverallProgress().Percent? ==> 0.0 <= v.OverallProgress().value <= 100.0
  {
    var phases := v.roadmap.phases;
    SubsetNoLarger(v.completedMilestones, RenderedKeys(phases));
    RenderedKeysAtMost(phases);
    TotalMilestonesIsSum(phases);
  }

  /**
    `AllCompleteIsFullProgress` for a viewer: with unique phase numbers and every
    rendered checkbox ticked, the header and every non-empty phase show 100.
   */
  lemma ViewerAllComplete(v: Viewer)
    requires UniquePhaseNumbers(v.roadmap.phases)
    requires v.completedMilestones == RenderedKeys(v.roadmap.phases)
    ensures TotalMilestones(v.roadmap.phases) > 0 ==> v.OverallProgress() == Percent(100.0)
    ensures forall j | 0 <= j < |v.roadmap.phases| && |v.roadmap.phases[j].milestones| > 0 ::
              v.PhaseProgress(j) == Percent(100.0)
  {
    AllCompleteIsFullProgress(v.roadmap.phases, v.completedMilestones);
  }
}

=== FILE: wrappers.dfy ===
/** Failure-compatible wrappers shared by every module of the model. */
module Wrappers {

  /** A value that may be absent (JavaScript `undefined`). */
  datatype Option<+T> = None | Some(value: T)

  /** A computation that either produced a value or threw an error carrying a message. */
  datatype Result<+T> = Success(value: T) | Failure(message: string)
}
